=== FILE: README.md ===
# JOS traps and copy-on-write fork, in Dafny

This project models two parts of a JOS-style teaching kernel:

- the kernel's trap path (`kern/trap.c`):
  - building the interrupt descriptor table;
  - naming trap numbers;
  - saving a user trap frame into the current environment and dispatching on the vector;
  - resuming the environment or yielding afterwards;
  - the kernel page-fault handler, which reflects user faults to a registered upcall on the user exception stack.
- the user-level copy-on-write fork library (`lib/fork.c`):
  - the copy-on-write fault handler;
  - the per-page sharing decision (`duppage`);
  - `fork` itself.

Everything is a pure function or a method over immutable values:

- An environment is an `Env` record. An address space is a `Space`, meaning the present page-directory indices plus page-table entries keyed by virtual page number.
- Physical memory maps frame numbers to page contents.
- Calls into code outside this model become inputs:
  - the system-call implementation is a function parameter;
  - the faulting-address register is a parameter;
  - the frame the allocator hands out is an `Option`;
  - whether a page-map call fails is a flag;
  - the results of child creation, upcall registration and status setting are integers in a `Kernel` record.
- A call that never returns (`env_run`, `sched_yield`, `monitor`, `panic`) becomes a tagged outcome.
- `fork` also returns a trace of the calls it made, so their order can be stated.

The header constants are not part of this model. They take the standard JOS values:

| group | values |
|---|---|
| exception vectors | 0-19 |
| other vectors | `T_SYSCALL` 48, `T_DEFAULT` 500 |
| interrupts | `IRQ_OFFSET` 32; timer 0, keyboard 1, IDE 14 |
| selectors | `GD_KT` 0x08 |
| error codes | `E_INVAL` 3, `FEC_WR` 2 |
| page size | `PGSIZE` 4096 |
| memory layout | `UTOP` = `UXSTACKTOP` = 0xEEC00000; `USTACKTOP` = `UTOP` - 2·`PGSIZE`; `PFTEMP` = 0x7FF000 |
| page-table flags | `PTE_COW` 0x800 |
| frame size | a 52-byte `UTrapframe` |

Behaviour reproduced as the code has it:

- **Recursive faults.** A page fault counts as recursive whenever the saved stack pointer is above `USTACKTOP`. That includes the guard page and addresses above the exception stack. The intent described in the comment at kern/trap.c:293-303 is narrower: a fault taken while already on the exception stack. The model follows the test as written.
- **Unexpected traps.** The unexpected-trap path halts the kernel only when the code selector equals `GD_KT`. A kernel-privilege trap under any other selector destroys the current environment (`Trap.SelectorNotPrivilegeDecides`).
- **System-call result.** A system call that returns `-E_INVAL` trips a kernel assertion. This halts the kernel, whichever environment made the call.
- **Resolved faults.** After a page fault is redirected to the upcall, no field of the environment record changes except `esp` and `eip`. The 52-byte fault frame written on the exception stack comes with the outcome as an address and a frame value.
- **Unexpected trap with no environment.** The unexpected-trap path calls `env_destroy(curenv)` without checking `curenv` (kern/trap.c:240). With no current environment that call dereferences a null record. The model ends there with the panic `DestroyWithoutEnv`.
- **Faults on the scratch page.** The copy-on-write handler copies the faulting page through the scratch page `PFTEMP`. A fault on `PFTEMP` itself therefore copies the freshly zeroed page, and the page ends up zeroed.

Modules, in dependency order:

| module | contents |
|---|---|
| `Machine` | words, layout constants, bit tests |
| `Paging` | entries, spaces, the page-alloc and page-map kernel calls, the user-memory check |
| `Vectors` | vector numbers and `trapname` |
| `Idt` | the gate table |
| `Frames` | trap frames and environments |
| `KernFault` | `page_fault_handler` |
| `Trap` | `trap_dispatch` and `trap` |
| `Cow` | `pgfault` and `duppage` |
| `Fork` | `fork` |

## Model

| member | source | states |
|---|---|---|
| Vectors.Trapname | kern/trap.c:27-59 | Every name returned is an exception name, "System call" or "Hardware Interrupt", and it is "System call" exactly for vector 48 |
| Vectors.TrapnameCases | kern/trap.c:27-59 | Every trap number falls in exactly one of four cases: exception name below 20, "System call" iff 48, "Hardware Interrupt" iff in [32, 48), "(unknown trap)" otherwise or for the reserved vector 15 |
| Vectors.NamesDistinct | kern/trap.c:29-50 | No exception name is "System call" or "Hardware Interrupt"; only entry 15 reads "(unknown trap)" |
| Vectors.ExceptionVectorNamesAgree | kern/trap.c:29-53 | Each of the 18 named exception vectors maps to its own name, including the "Double Falt" spelling |
| Vectors.OtherVectorNamesAgree | kern/trap.c:54-58 | The system-call vector and the timer, keyboard and IDE lines get their fixed names, and the catch-all vector 500 is unknown |
| Idt.SetGate | kern/trap.c:125-151 | One SETGATE writes a present gate at its vector of the 256-entry table and leaves every other entry alone |
| Idt.InstallChecked | kern/trap.c:21-151 | Writing a gate list stays inside the table iff every vector is below 256, and then gives the same table as the in-order writes |
| Idt.InstallCheckedOverruns | kern/trap.c:21-151 | A gate list with any vector outside the 256-entry table cannot be installed inside it |
| Idt.AsWrittenIdtInitOverruns | kern/trap.c:147 | The initialisation as written writes past the end of the table (vector 500 of 256) |
| Idt.Install | kern/trap.c:125-151 | Written in order, every assigned vector holds the gate of one of its assignments; vectors not assigned are untouched |
| Idt.InstallLastWriteWins | kern/trap.c:125-151 | The last assignment to a vector is the gate the table ends up holding there |
| Idt.InstalledGatesObeyPolicy | kern/trap.c:125-151 | Every active gate is in range, uses the kernel code selector, is an interrupt gate, and has privilege 3 exactly for breakpoint and system call |
| Idt.InstalledGatesCover | kern/trap.c:125-151 | The active gates cover exactly the 18 exceptions, the system call and the three IRQ lines |
| Idt.InstallObeysPolicy | kern/trap.c:125-151 | Installing policy-abiding gates into an empty table gives present gates exactly at the assigned vectors, each obeying the policy |
| Idt.IdtInit | kern/trap.c:89-151 | The built table has a present gate iff the vector is one of the installed ones, and every present gate obeys the policy |
| Idt.PolicyTableInvocable | kern/trap.c:125-151 | In any policy table, privilege-3 INT n reaches a handler iff the vector is breakpoint or system call; privilege 0 reaches every installed vector |
| Idt.UserInvocableVectors | kern/trap.c:128-146 | User code can raise only vectors 3 and 48 by software interrupt |
| Machine.ToU32 | kern/trap.c:221 | Storing the signed system-call result in eax keeps its bit pattern: equal modulo 2^32, and non-negative iff below 2^31 |
| Paging.EncodePte | lib/fork.c:6-8 | The 32-bit entry holds the frame in bits 12-31 and present, writable, user and copy-on-write in bits 0, 1, 2 and 11 |
| Paging.DecodeEncode | lib/fork.c:6-8 | Decoding an encoded entry gives the entry back |
| Paging.PageMap | lib/fork.c:81-86 | A page map succeeds iff the call does not fail and the source page is present; it points the destination page at the source frame with the given permissions and changes nothing else |
| Paging.PageAlloc | lib/fork.c:142-143 | A page alloc succeeds iff a frame is available; it maps a zeroed frame at the page and leaves every other page and every other frame as they were |
| Paging.RangePermittedByPages | kern/trap.c:325 | The byte-range permission check equals the check of every page the range touches |
| KernFault.RecursiveFaultRegions | kern/trap.c:319 | A fault with the stack pointer on the exception-stack page or in the gap above the user stack counts as recursive; one at or below the user-stack top does not |
| KernFault.FramePlacement | kern/trap.c:319-322 | The frame sits just below the saved stack pointer on a recursive fault and just below the exception-stack top otherwise, with a 4-byte gap in both cases; a non-recursive frame lies inside the top exception-stack page |
| KernFault.PageFaultHandler | kern/trap.c:272-345 | Kernel-mode fault panics; no upcall destroys; otherwise redirect iff the frame range plus one byte is user-writable. A redirect copies fault address, error code, registers, eip, eflags and esp into the frame, and resumes at the upcall with esp at the frame |
| KernFault.RedirectIsResumable | kern/trap.c:327-335 | The fault frame plus the redirected frame restore the exact trap-time frame |
| KernFault.NestedFrameBelowPrior | kern/trap.c:297-322 | On a recursive fault the new frame ends 4 bytes below the interrupted stack pointer, so the prior frame is not overwritten |
| KernFault.NoUpcallNeverRedirects | kern/trap.c:318-344 | Without a registered upcall a fault is never reflected to user code |
| Trap.SyscallArgsOf | kern/trap.c:214-219 | The call number comes from eax and the five arguments from edx, ecx, ebx, edi and esi, in that order |
| Trap.Dispatch | kern/trap.c:199-243 | Page fault goes to the fault handler, whose panic reason, destroy or redirect (with the frame it pushes) is passed on; breakpoint enters the monitor; a system call that leaves through the scheduler yields with the environment it left, and one that returns panics iff the result is -E_INVAL, and otherwise returns from dispatch with the result in eax of the environment's frame as the call left it; timer yields; any other vector panics iff the selector is GD_KT or there is no environment, and otherwise destroys the environment |
| Trap.Snapshot | kern/trap.c:248-257 | After a user trap the current environment holds the trapped frame, with id, status, upcall and space unchanged; after a kernel trap it is as it was |
| Trap.Trap | kern/trap.c:245-269 | A user trap with no environment panics. After a returning handler the environment resumes iff it exists and is runnable, and otherwise the scheduler runs with that environment. A handler that resumes the environment itself, yields, enters the monitor or panics ends the trap there with the same outcome and reason. Only a page fault or a system call resumes. A page fault resumes the trapped environment with no field but esp and eip changed, reporting the fault frame pushed at the new esp. A system call resumes the environment as the call left it, with the result in eax for a user trap |
| Trap.RedirectedFaultResumes | kern/trap.c:318-336 | A user page fault with a registered upcall and a user-writable frame range writes the fault frame of the trap-time registers and faulting address at the frame placement, and resumes the environment at the upcall with esp at that frame; no other field of the environment record changes |
| Trap.NoReturnSyscallYields | kern/trap.c:212-223 | A system call that leaves through the scheduler ends the trap in the scheduler, with the environment as the call left it |
| Trap.UnknownVectorPolicy | kern/trap.c:235-242 | An unclaimed vector with the kernel code selector halts; from user mode it destroys the environment and yields |
| Trap.SelectorNotPrivilegeDecides | kern/trap.c:237-241 | A privilege-0 trap under a selector other than GD_KT destroys the environment instead of halting |
| Trap.SyscallResumes | kern/trap.c:212-223 | A user system call that returns, stays runnable and leaves its saved frame alone resumes with the space and upcall the call left, at the same eip and esp, with the result in eax and every other register unchanged |
| Cow.CowWriteFaultOnWord | lib/fork.c:33-36 | The handler's test is the write bit of the error code together with the copy-on-write bit of the faulting page's 32-bit entry |
| Cow.PgFault | lib/fork.c:17-54 | Panics iff not a write to a COW page (or a later step fails). On success the page maps a fresh writable frame holding the old contents, also mapped at PFTEMP; no other page or frame changes; the same write no longer faults as COW; no COW entry becomes writable |
| Cow.DupPerm | lib/fork.c:72-79 | Shared pages are present, user and never writable, and copy-on-write iff the page was writable or copy-on-write |
| Cow.DupChildPte | lib/fork.c:81-82 | The child's entry shares the frame, is read-only, and is COW iff the page needed it |
| Cow.DupParentPte | lib/fork.c:84-87 | The parent's entry keeps its frame, is re-marked COW when needed, and is otherwise untouched |
| Cow.DupPage | lib/fork.c:66-89 | Succeeds iff the page is present and the needed map calls succeed; then returns 0, gives both sides the entries above at that page, and leaves every other page alone |
| Fork.Duplicated | lib/fork.c:130-136 | A page the walk shares is mapped in the parent, lies below UTOP, and is not the exception-stack page |
| Fork.ExoforkView | lib/fork.c:112-124 | Negative child creation results are errors, zero means the child, positive is the child's id in the parent |
| Fork.DupAll | lib/fork.c:127-140 | The walk shares exactly the present user pages below UTOP, except the exception stack, under present directory entries, in ascending order, leaving every page as the per-page rule says; it stops only at a failing map, and there at the first shared page whose map fails |
| Fork.ForkedParentCowReadOnly | lib/fork.c:84-87 | After fork no parent entry is both COW and writable if none was before |
| Fork.ForkedChildCowReadOnly | lib/fork.c:142 | The same holds for the child, whose exception stack is writable and not COW |
| Fork.Fork | lib/fork.c:107-150 | Returns the creation error with the parent untouched, 0 in the child, the status error with the parent's pages already shared, or the child's id. After a successful creation it panics iff a map call for a shared page fails, no frame is available for the child's exception stack, or upcall registration fails. Every page is shared as the walk says. The child gets a fresh zeroed exception stack, its upcall and runnable status, in that order and only after all sharing. No present parent page, and no child page but the exception stack, uses the exception-stack frame |
| Fork.ForkedFramesAvoid | lib/fork.c:131-142 | A frame that neither space used before fork backs no present page afterwards, except the child's exception stack |
| Fork.ForkedPagePermissions | lib/fork.c:56-89 | Writable or COW pages end COW and read-only on both sides with the same frame; read-only pages are shared read-only, the parent's entry unchanged |
| Fork.ForkedWriteFaultsResolvable | lib/fork.c:36 | After fork, a write to a formerly writable or COW page is a fault the COW handler accepts, on either side; to a read-only page it is not |

## Findings

| source | as written | input that shows it | evidently intended | confidence | as-written member | corrected member |
|---|---|---|---|---|---|---|
| kern/trap.c:147 | `SETGATE(idt[T_DEFAULT], …)` writes entry 500 of the 256-entry `idt` (kern/trap.c:21) | the gate setup itself, with `T_DEFAULT` = 500 | a table with no entry outside its bounds; the catch-all cannot be a gate of a 256-entry table | medium (depends on the header value of `T_DEFAULT`), not executed | Idt.AsWrittenIdtInitOverruns | Idt.IdtInit |

## Left out

- Task-state segment setup, GDT entry, `ltr` and `lidt` (kern/trap.c:153-167): these are hardware register loads with no observable logic beyond the table itself.
- The commented-out gate block (kern/trap.c:95-123): the compiler never sees it.
- `print_trapframe` and `print_regs`, and the `cprintf` calls in the fault path: console output only.
- The kernel monitor loop, `sched_yield`, `env_run` and `env_destroy` bodies: these live in other files. A yield, a run and a monitor entry are outcomes. `env_destroy` is modelled as setting the status to free.
- The system-call implementation (kern/syscall.c is not part of this model): it is a function parameter. It takes the arguments and the current environment. It either returns a result together with the resulting current environment, or never returns and leaves an environment for the scheduler. Which calls do what is left abstract.
- `rcr2`: the faulting address is a parameter.
- Trap.Trap: user memory is not modelled on the trap path. The fault frame written at kern/trap.c:327-332 is reported as an address and a value with the resumed environment, not applied to a memory image.
- `user_mem_assert` is modelled as the page-permission check over the byte range. The ULIM bound of kern/pmap.c is not part of this model. A failed check destroys the environment, as the handler's own destroy path does.
- `sys_page_alloc`, `sys_page_map`, `sys_exofork`, `sys_env_set_pgfault_upcall`, `sys_env_set_status`: each is reduced to its effect on the address spaces and to an oracle result. Kernel-side permission checks are folded into the failure flags.
- The `vpt`/`vpd` self-mapped page tables are read as the environment's own `Space`.
- `memmove` is a copy of one whole page. A copy from a non-present page becomes the panic the nested read fault would cause.
- `set_pgfault_handler` and the `_pgfault_upcall` assembly: outside the core. Fork records the registration as a trace step. On its first use `set_pgfault_handler` also allocates the parent's own exception stack; that allocation is not modelled, so the parent space fork starts from is the one after it.
- `fork`'s child branch looks up its own environment with `sys_getenvid`. This sets a library global and is left out.
- The `if (ret < 0) return ret` after `duppage` (lib/fork.c:138) is unreachable, because `duppage` panics or returns 0.
- `sfork` (lib/fork.c:153-158) only panics.
- Fork.Fork: the child's view of memory is not copied per page; only page-table entries and frame sharing are modelled.
- Fork.Fork: the parent keeps running while it walks its pages, and its own writes can then hit a page just marked copy-on-write. Those faults, resolved by the parent's copy-on-write handler, are not modelled. The parent's entries are stated as the walk leaves them, before any such fault.

=== FILE: cow.dfy ===
/** The user-level copy-on-write machinery: the page-fault handler that
    gives a writer its private copy, and the per-page decision fork uses to
    share a page with a child. */
module Cow {
  import opened Machine
  import opened Paging
  import opened Frames

  /** Why the user-level handler panics. */
  datatype CowFailure =
    /** The fault was not a write to a copy-on-write page. */
    | NotCowWrite
    | AllocFailed
    /** Reading the faulting page would itself fault (it is not present and
        user-readable), and that nested fault is a read, which the handler
        rejects. */
    | CopyFaulted
    | MapFailed

  datatype PgOutcome = PgPanic(why: CowFailure) | PgResolved(space: Space, mem: Mem)

  /** The allocator hands out a frame no memory record and no entry of the
      address space refers to. */
  predicate FreshFrame(f: nat, s: Space, mem: Mem)
  {
    f !in mem && forall v :: v in s.pt ==> s.pt[v].frame != f
  }

  /** A write to a copy-on-write page: the faulting access was a write and
      the page's entry carries the copy-on-write mark. */
  predicate CowWriteFault(utf: UTrapframe, self: Space)
  {
    HasBit(utf.err, FEC_WR) && Lookup(self.pt, PageNumber(utf.faultVa)).flags.cow
  }

  /** The test reads the copy-on-write bit of the faulting page's entry word
      and the write bit of the error code. */
  lemma CowWriteFaultOnWord(utf: UTrapframe, self: Space)
    requires Lookup(self.pt, PageNumber(utf.faultVa)).frame < 0x10_0000
    ensures CowWriteFault(utf, self) <==>
      HasBit(utf.err, FEC_WR) && HasBit(EncodePte(Lookup(self.pt, PageNumber(utf.faultVa))), PTE_COW)
  {
  }

  /** Handle the fault `utf` in address space `self`: allocate a page at the
      scratch address, copy the faulting page into it, and map it over the
      faulting page writable.  `alloc` is the frame the allocator returns
      (None when out of memory), `mapFails` whether the final map fails. */
  function PgFault(utf: UTrapframe, self: Space, mem: Mem, alloc: Option<nat>, mapFails: bool): (r: PgOutcome)
    requires alloc.Some? ==> FreshFrame(alloc.value, self, mem)
    ensures r == PgPanic(NotCowWrite) <==> !CowWriteFault(utf, self)
    ensures var vpn := PageNumber(utf.faultVa); var e := Lookup(self.pt, vpn);
      r.PgResolved? <==>
        CowWriteFault(utf, self) && alloc.Some? && !mapFails && (vpn == PFTEMP_VPN || (e.flags.p && e.flags.u))
    ensures r.PgResolved? ==> Lookup(r.space.pt, PageNumber(utf.faultVa)) == Pte(alloc.value, PermPUW)
    ensures r.PgResolved? && PageNumber(utf.faultVa) != PFTEMP_VPN ==>
      Read(r.mem, alloc.value) == Read(mem, Lookup(self.pt, PageNumber(utf.faultVa)).frame)
    ensures r.PgResolved? && PageNumber(utf.faultVa) == PFTEMP_VPN ==> Read(r.mem, alloc.value) == ZeroPage()
    ensures r.PgResolved? ==> Lookup(r.space.pt, PFTEMP_VPN) == Pte(alloc.value, PermPUW)
    ensures r.PgResolved? ==> forall v :: v != PageNumber(utf.faultVa) && v != PFTEMP_VPN ==>
      Lookup(r.space.pt, v) == Lookup(self.pt, v)
    ensures r.PgResolved? ==> forall f :: f in mem ==> f in r.mem && r.mem[f] == mem[f]
    ensures r.PgResolved? && CowReadOnly(self) ==> CowReadOnly(r.space)
    ensures r.PgResolved? ==> !CowWriteFault(utf, r.space) && PermittedAt(r.space.pt, utf.faultVa, PermPUW)
  {
    var vpn := PageNumber(utf.faultVa);
    if !CowWriteFault(utf, self) then PgPanic(NotCowWrite)
    else match PageAlloc(self, mem, PFTEMP_VPN, PermPUW, alloc)
      case None => PgPanic(AllocFailed)
      case Some((s1, m1)) =>
        var src := Lookup(s1.pt, vpn);
        if !(src.flags.p && src.flags.u) then PgPanic(CopyFaulted)
        else
          var m2 := m1[alloc.value := Read(m1, src.frame)];
          match PageMap(s1, PFTEMP_VPN, s1, vpn, PermPUW, mapFails)
          case None => PgPanic(MapFailed)
          case Some(s2) => PgResolved(s2, m2)
  }

  /** Copy-on-write sharing is needed when the page is writable or already
      copy-on-write. */
  predicate NeedsCow(e: Pte)
  {
    e.flags.w || e.flags.cow
  }

  /** The permissions both sides get for a shared page. */
  function DupPerm(e: Pte): (perm: Flags)
    ensures perm.p && perm.u && !perm.w
    ensures perm.cow <==> NeedsCow(e)
  {
    if NeedsCow(e) then PermPUCow else PermPU
  }

  /** The child's entry after duplication: same frame, never writable. */
  function DupChildPte(e: Pte): (c: Pte)
    ensures c.frame == e.frame && c.flags.p && c.flags.u && !c.flags.w
    ensures c.flags.cow <==> NeedsCow(e)
  {
    Pte(e.frame, DupPerm(e))
  }

  /** The parent's entry after duplication: re-marked copy-on-write when it
      needed it, otherwise untouched. */
  function DupParentPte(e: Pte): (p: Pte)
    ensures p.frame == e.frame
    ensures NeedsCow(e) ==> p.flags == PermPUCow
    ensures !NeedsCow(e) ==> p == e
    ensures !p.flags.w
  {
    if NeedsCow(e) then Pte(e.frame, PermPUCow) else e
  }

  datatype DupOutcome = DupPanic | DupOk(ret: int, parent: Space, child: Space)

  /** Share page `vpn` of `parent` with `child`: map it into the child, then,
      when copy-on-write is needed, map it again over the parent's own page
      with the same permissions.  Either map failing is a panic.
      `childFails` and `selfFails` say whether the two map calls fail. */
  function DupPage(parent: Space, child: Space, vpn: nat, childFails: bool, selfFails: bool): (r: DupOutcome)
    ensures var e := Lookup(parent.pt, vpn);
      r.DupOk? <==> e.flags.p && !childFails && (NeedsCow(e) ==> !selfFails)
    ensures r.DupOk? ==> r.ret == 0
    ensures r.DupOk? ==> Lookup(r.child.pt, vpn) == DupChildPte(Lookup(parent.pt, vpn))
    ensures r.DupOk? ==> Lookup(r.parent.pt, vpn) == DupParentPte(Lookup(parent.pt, vpn))
    ensures r.DupOk? ==> !Lookup(r.child.pt, vpn).flags.w && !Lookup(r.parent.pt, vpn).flags.w
    ensures r.DupOk? ==> forall v :: v != vpn ==>
      Lookup(r.child.pt, v) == Lookup(child.pt, v) && Lookup(r.parent.pt, v) == Lookup(parent.pt, v)
    ensures r.DupOk? ==> r.parent.pde <= parent.pde + {PageDirIndex(vpn)}
    ensures r.DupOk? ==> parent.pde <= r.parent.pde
    ensures r.DupOk? && WellFormed(child) ==> WellFormed(r.child)
  {
    var e := Lookup(parent.pt, vpn);
    var perm := DupPerm(e);
    match PageMap(parent, vpn, child, vpn, perm, childFails)
    case None => DupPanic
    case Some(child1) =>
      if NeedsCow(e) then
        match PageMap(parent, vpn, parent, vpn, perm, selfFails)
        case None => DupPanic
        case Some(parent1) => DupOk(0, parent1, child1)
      else DupOk(0, parent, child1)
  }
}

=== FILE: fork.dfy ===
/** User-level fork with copy-on-write: install the fault handler, create a
    child, share every user page with it, give it a private exception stack
    and its upcall, and only then let it run. */
module Fork {
  import opened Machine
  import opened Paging
  import opened Frames
  import opened Cow

  /** The calls fork makes, in the order it makes them. */
  datatype Step =
    | SetHandler
    | Exofork
    | Dup(vpn: nat)
    | AllocExceptionStack
    | SetUpcall
    | SetRunnable

  /** The two returns of child creation, seen as one tagged value. */
  datatype ExoView = ExoFailed(err: int) | ChildView | ParentView(envid: nat)

  function ExoforkView(ret: int): (v: ExoView)
    ensures v.ExoFailed? <==> ret < 0
    ensures v.ExoFailed? ==> v.err == ret
    ensures v.ChildView? <==> ret == 0
    ensures v.ParentView? ==> v.envid == ret
  {
    if ret < 0 then ExoFailed(ret) else if ret == 0 then ChildView else ParentView(ret)
  }

  /** What the kernel answers to fork's calls: the child-creation result,
      the page numbers at which the map into the child or the re-map of the
      parent fails, the frame for the child's exception stack (None when out
      of memory), and the results of setting the child's upcall and status. */
  datatype Kernel = Kernel(
    exofork: int,
    childMapFails: set<nat>,
    selfMapFails: set<nat>,
    xstackFrame: Option<nat>,
    upcallRet: int,
    statusRet: int)

  datatype Child = Child(space: Space, upcall: u32, runnable: bool)

  datatype ForkOutcome =
    /** A negative result returned to the caller, whose address space is
        then `parent`. */
    | ForkFailed(err: int, parent: Space, trace: seq<Step>)
    /** The child's return from fork. */
    | ForkChild(trace: seq<Step>)
    /** The parent's successful return. */
    | ForkParent(envid: nat, parent: Space, child: Child, mem: Mem, trace: seq<Step>)
    | ForkPanicked(trace: seq<Step>)

  /** The value fork returns to its caller. */
  function ReturnValue(out: ForkOutcome): int
    requires !out.ForkPanicked?
  {
    match out
    case ForkFailed(err, _, _) => err
    case ForkChild(_) => 0
    case ForkParent(envid, _, _, _, _) => envid
  }

  /** The pages fork shares with the child: below UTOP, not the exception
      stack, under a present page-directory entry, present and user. */
  predicate Duplicated(p0: Space, v: nat)
    ensures Duplicated(p0, v) ==> v in p0.pt && v * PGSIZE < UTOP && v * PGSIZE != UXSTACKTOP - PGSIZE
  {
    PageAddress(v);
    && v < NUPAGES
    && v != XSTACK_VPN
    && PageDirIndex(v) in p0.pde
    && Lookup(p0.pt, v).flags.p
    && Lookup(p0.pt, v).flags.u
  }

  /** The parent's entry for page `v` once the walk has passed page `bound`. */
  function ForkedParentPte(p0: Space, bound: nat, v: nat): Pte
  {
    if v < bound && Duplicated(p0, v) then DupParentPte(Lookup(p0.pt, v)) else Lookup(p0.pt, v)
  }

  /** The child's entry for page `v` once the walk has passed page `bound`. */
  function ForkedChildPte(p0: Space, c0: Space, bound: nat, v: nat): Pte
  {
    if v < bound && Duplicated(p0, v) then DupChildPte(Lookup(p0.pt, v)) else Lookup(c0.pt, v)
  }

  /** The page-table walk fork makes and the page address it derives from
      each page number: the walk stops at UTOP and skips the exception-stack
      page. */
  lemma PageAddress(pn: nat)
    ensures pn * PGSIZE < UTOP <==> pn < NUPAGES
    ensures pn * PGSIZE == UXSTACKTOP - PGSIZE <==> pn == XSTACK_VPN
  {
  }

  /** `t` is the record of the page duplications made while walking every
      page below `bound`: only duplications, in ascending page order, one
      for each page fork shares. */
  ghost predicate DupWalk(t: seq<Step>, p0: Space, bound: nat)
  {
    && (forall i :: 0 <= i < |t| ==> t[i].Dup?)
    && (forall i, j :: 0 <= i < j < |t| ==> t[i].vpn < t[j].vpn)
    && (forall v: nat :: Dup(v) in t <==> v < bound && Duplicated(p0, v))
  }

  /** Passing a page fork does not share leaves the record as it is. */
  lemma {:induction false} DupWalkSkip(t: seq<Step>, p0: Space, pn: nat)
    requires DupWalk(t, p0, pn) && !Duplicated(p0, pn)
    ensures DupWalk(t, p0, pn + 1)
  {
  }

  /** Sharing page `pn` appends its duplication at the end of the record. */
  lemma {:induction false} DupWalkExtend(t: seq<Step>, p0: Space, pn: nat)
    requires DupWalk(t, p0, pn) && Duplicated(p0, pn)
    ensures DupWalk(t + [Dup(pn)], p0, pn + 1)
  {
  }

  /** Where the page walk ends: stopped by a failed duplication of page
      `at`, or done with both address spaces updated. */
  datatype DupRun =
    | DupAborted(walk: seq<Step>, at: nat)
    | DupDone(walk: seq<Step>, parent: Space, child: Space)

  /** Walk every user page below UTOP except the exception stack, sharing
      each present user page with the child. */
  method DupAll(parent0: Space, childInit: Space, k: Kernel) returns (r: DupRun)
    requires WellFormed(childInit)
    ensures r.DupAborted? ==> DupWalk(r.walk, parent0, r.at) && Duplicated(parent0, r.at)
    ensures r.DupAborted? ==>
      var e := Lookup(parent0.pt, r.at);
      r.at in k.childMapFails || (NeedsCow(e) && r.at in k.selfMapFails)
    ensures r.DupAborted? ==> forall v: nat :: v < r.at && Duplicated(parent0, v) ==>
      v !in k.childMapFails && (NeedsCow(Lookup(parent0.pt, v)) ==> v !in k.selfMapFails)
    ensures r.DupDone? ==> DupWalk(r.walk, parent0, NUPAGES)
    ensures r.DupDone? ==> forall v :: Lookup(r.parent.pt, v) == ForkedParentPte(parent0, NUPAGES, v)
    ensures r.DupDone? ==> forall v :: Lookup(r.child.pt, v) == ForkedChildPte(parent0, childInit, NUPAGES, v)
    ensures r.DupDone? ==> r.parent.pde == parent0.pde && WellFormed(r.child)
    ensures r.DupDone? ==> forall v: nat :: Duplicated(parent0, v) ==>
      v !in k.childMapFails && (NeedsCow(Lookup(parent0.pt, v)) ==> v !in k.selfMapFails)
  {
    var parent := parent0;
    var child := childInit;
    var walk: seq<Step> := [];
    var pn: nat := 0;
    while pn * PGSIZE < UTOP
      invariant pn <= NUPAGES
      invariant parent.pde == parent0.pde
      invariant forall v :: Lookup(parent.pt, v) == ForkedParentPte(parent0, pn, v)
      invariant forall v :: Lookup(child.pt, v) == ForkedChildPte(parent0, childInit, pn, v)
      invariant WellFormed(child)
      invariant DupWalk(walk, parent0, pn)
      invariant forall v: nat :: v < pn && Duplicated(parent0, v) ==>
        v !in k.childMapFails && (NeedsCow(Lookup(parent0.pt, v)) ==> v !in k.selfMapFails)
      decreases NUPAGES - pn
    {
      PageAddress(pn);
      if pn * PGSIZE == UXSTACKTOP - PGSIZE || PageDirIndex(pn) !in parent.pde {
        DupWalkSkip(walk, parent0, pn);
        pn := pn + 1;
        continue;
      }
      var e := Lookup(parent.pt, pn);
      assert e == Lookup(parent0.pt, pn);
      if e.flags.p && e.flags.u {
        var d := DupPage(parent, child, pn, pn in k.childMapFails, pn in k.selfMapFails);
        if d.DupPanic? {
          return DupAborted(walk, pn);
        }
        parent := d.parent;
        child := d.child;
        DupWalkExtend(walk, parent0, pn);
        walk := walk + [Dup(pn)];
      } else {
        DupWalkSkip(walk, parent0, pn);
      }
      pn := pn + 1;
    }
    PageAddress(pn);
    r := DupDone(walk, parent, child);
  }

  /** Fork leaves no entry both copy-on-write and writable in the parent
      when there was none before. */
  lemma ForkedParentCowReadOnly(p0: Space, p: Space)
    requires CowReadOnly(p0)
    requires forall v :: Lookup(p.pt, v) == ForkedParentPte(p0, NUPAGES, v)
    ensures CowReadOnly(p)
  {
    forall v | v in p.pt
      ensures !(p.pt[v].flags.cow && p.pt[v].flags.w)
    {
      assert p.pt[v] == Lookup(p.pt, v);
      if !(v < NUPAGES && Duplicated(p0, v)) && v in p0.pt {
        assert Lookup(p0.pt, v) == p0.pt[v];
      }
    }
  }

  /** The same for the child, whose exception-stack page is writable and not
      copy-on-write. */
  lemma ForkedChildCowReadOnly(p0: Space, c0: Space, c: Space, xstack: Pte)
    requires CowReadOnly(c0) && !xstack.flags.cow
    requires forall v :: v != XSTACK_VPN ==> Lookup(c.pt, v) == ForkedChildPte(p0, c0, NUPAGES, v)
    requires Lookup(c.pt, XSTACK_VPN) == xstack
    ensures CowReadOnly(c)
  {
    forall v | v in c.pt
      ensures !(c.pt[v].flags.cow && c.pt[v].flags.w)
    {
      assert c.pt[v] == Lookup(c.pt, v);
      if v != XSTACK_VPN && !(v < NUPAGES && Duplicated(p0, v)) && v in c0.pt {
        assert Lookup(c0.pt, v) == c0.pt[v];
      }
    }
  }

  /** The child's exception-stack frame, fresh for both address spaces
      before fork, backs no present page other than the child's exception
      stack afterwards: the stack is private to the child. */
  lemma ForkedFramesAvoid(p0: Space, c0: Space, f: nat, p: Space, c: Space)
    requires forall v :: v in p0.pt ==> p0.pt[v].frame != f
    requires forall v :: v in c0.pt ==> c0.pt[v].frame != f
    requires forall v :: Lookup(p.pt, v) == ForkedParentPte(p0, NUPAGES, v)
    requires forall v :: v != XSTACK_VPN ==> Lookup(c.pt, v) == ForkedChildPte(p0, c0, NUPAGES, v)
    ensures forall v :: Lookup(p.pt, v).flags.p ==> Lookup(p.pt, v).frame != f
    ensures forall v :: v != XSTACK_VPN && Lookup(c.pt, v).flags.p ==> Lookup(c.pt, v).frame != f
  {
    forall v: nat | Lookup(p.pt, v).flags.p
      ensures Lookup(p.pt, v).frame != f
    {
      assert Lookup(p0.pt, v).flags.p;
    }
    forall v: nat | v != XSTACK_VPN && Lookup(c.pt, v).flags.p
      ensures Lookup(c.pt, v).frame != f
    {
      if !(v < NUPAGES && Duplicated(p0, v)) {
        assert Lookup(c0.pt, v).flags.p;
      }
    }
  }

  /** Some page the walk shares hits a failing map call: the map into the
      child, or the re-map of a copy-on-write page in the parent. */
  ghost predicate WalkMapFails(p0: Space, k: Kernel)
  {
    exists v: nat :: Duplicated(p0, v) &&
      (v in k.childMapFails || (NeedsCow(Lookup(p0.pt, v)) && v in k.selfMapFails))
  }

  /** Fork from address space `parent0`.  `childInit` is the address space
      child creation hands back, `upcall` the fault entry point registered
      for the child. */
  method Fork(parent0: Space, childInit: Space, mem: Mem, k: Kernel, upcall: u32) returns (out: ForkOutcome)
    requires k.xstackFrame.Some? ==> FreshFrame(k.xstackFrame.value, childInit, mem)
    requires k.xstackFrame.Some? ==> forall v :: v in parent0.pt ==> parent0.pt[v].frame != k.xstackFrame.value
    requires WellFormed(childInit)
    ensures |out.trace| >= 2 && out.trace[0] == SetHandler && out.trace[1] == Exofork
    ensures k.exofork < 0 ==> out == ForkFailed(k.exofork, parent0, [SetHandler, Exofork])
    ensures k.exofork == 0 ==> out == ForkChild([SetHandler, Exofork])
    ensures k.exofork > 0 ==>
      (out.ForkPanicked? <==> WalkMapFails(parent0, k) || k.xstackFrame.None? || k.upcallRet < 0)
    ensures k.exofork > 0 && out.ForkFailed? ==> out.err == k.statusRet && k.statusRet < 0
    ensures k.exofork > 0 && out.ForkFailed? ==>
      forall v :: Lookup(out.parent.pt, v) == ForkedParentPte(parent0, NUPAGES, v)
    ensures !out.ForkPanicked? && k.exofork > 0 ==>
      ReturnValue(out) == if k.statusRet < 0 then k.statusRet else k.exofork
    ensures out.ForkParent? ==> out.envid == k.exofork && k.xstackFrame.Some?
    ensures out.ForkParent? ==> forall v :: Lookup(out.parent.pt, v) == ForkedParentPte(parent0, NUPAGES, v)
    ensures out.ForkParent? ==> forall v :: v != XSTACK_VPN ==>
      Lookup(out.child.space.pt, v) == ForkedChildPte(parent0, childInit, NUPAGES, v)
    ensures out.ForkParent? ==> Lookup(out.child.space.pt, XSTACK_VPN) == Pte(k.xstackFrame.value, PermPUW)
    ensures out.ForkParent? ==> Read(out.mem, k.xstackFrame.value) == ZeroPage()
    ensures out.ForkParent? ==> forall v :: Lookup(out.parent.pt, v).flags.p ==>
      Lookup(out.parent.pt, v).frame != k.xstackFrame.value
    ensures out.ForkParent? ==> forall v :: v != XSTACK_VPN && Lookup(out.child.space.pt, v).flags.p ==>
      Lookup(out.child.space.pt, v).frame != k.xstackFrame.value
    ensures out.ForkParent? ==> forall f :: f in mem ==> f in out.mem && out.mem[f] == mem[f]
    ensures out.ForkParent? ==> out.child.upcall == upcall && out.child.runnable
    ensures out.ForkParent? ==> out.parent.pde == parent0.pde && WellFormed(out.child.space)
    ensures out.ForkParent? && CowReadOnly(parent0) ==> CowReadOnly(out.parent)
    ensures out.ForkParent? && CowReadOnly(childInit) ==> CowReadOnly(out.child.space)
    ensures Dup(XSTACK_VPN) !in out.trace
    ensures forall i :: 0 <= i < |out.trace| - 1 ==> out.trace[i] != SetRunnable
    ensures out.ForkParent? ==>
      var t := out.trace;
      && |t| >= 5
      && t[|t| - 3..] == [AllocExceptionStack, SetUpcall, SetRunnable]
      && DupWalk(t[2..|t| - 3], parent0, NUPAGES)
  {
    var trace := [SetHandler, Exofork];
    match ExoforkView(k.exofork)
    case ExoFailed(err) =>
      return ForkFailed(err, parent0, trace);
    case ChildView =>
      return ForkChild(trace);
    case ParentView(envid) =>
      var run := DupAll(parent0, childInit, k);
      if run.DupAborted? {
        assert Dup(XSTACK_VPN) !in run.walk;
        return ForkPanicked(trace + run.walk + [Dup(run.at)]);
      }
      var walk := run.walk;
      assert Dup(XSTACK_VPN) !in walk;
      var tail := [AllocExceptionStack, SetUpcall, SetRunnable];
      var alloc := PageAlloc(run.child, mem, XSTACK_VPN, PermPUW, k.xstackFrame);
      if alloc.None? {
        return ForkPanicked(trace + walk + tail[..1]);
      }
      var (child1, mem1) := alloc.value;
      if k.upcallRet < 0 {
        return ForkPanicked(trace + walk + tail[..2]);
      }
      if k.statusRet < 0 {
        return ForkFailed(k.statusRet, run.parent, trace + walk + tail);
      }
      out := ForkParent(envid, run.parent, Child(child1, upcall, true), mem1, trace + walk + tail);
      assert out.trace[2..|out.trace| - 3] == walk;
      ForkedFramesAvoid(parent0, childInit, k.xstackFrame.value, run.parent, child1);
      if CowReadOnly(parent0) {
        ForkedParentCowReadOnly(parent0, run.parent);
      }
      if CowReadOnly(childInit) {
        ForkedChildCowReadOnly(parent0, childInit, child1, Pte(k.xstackFrame.value, PermPUW));
      }
  }

  /** After fork, a page that was writable or copy-on-write in the parent is
      present, user, copy-on-write and not writable on both sides, backed by
      the same frame; a present read-only page is shared read-only with
      neither side copy-on-write, the parent's entry untouched. */
  lemma ForkedPagePermissions(p0: Space, c0: Space, v: nat)
    requires Duplicated(p0, v)
    ensures var e := Lookup(p0.pt, v);
      var p := ForkedParentPte(p0, NUPAGES, v);
      var c := ForkedChildPte(p0, c0, NUPAGES, v);
      && p.frame == e.frame && c.frame == e.frame
      && (NeedsCow(e) ==> p.flags == PermPUCow && c.flags == PermPUCow)
      && (!NeedsCow(e) ==> p == e && c.flags == PermPU)
  {
  }

  /** After fork, a write to a page that was writable or copy-on-write in the
      parent is, on either side, a fault the copy-on-write handler accepts;
      a write to a page that was read-only stays a fault it rejects. */
  lemma ForkedWriteFaultsResolvable(p0: Space, c0: Space, p: Space, c: Space, utf: UTrapframe)
    requires Duplicated(p0, PageNumber(utf.faultVa)) && HasBit(utf.err, FEC_WR)
    requires forall v :: Lookup(p.pt, v) == ForkedParentPte(p0, NUPAGES, v)
    requires forall v :: v != XSTACK_VPN ==> Lookup(c.pt, v) == ForkedChildPte(p0, c0, NUPAGES, v)
    ensures CowWriteFault(utf, p) <==> NeedsCow(Lookup(p0.pt, PageNumber(utf.faultVa)))
    ensures CowWriteFault(utf, c) <==> NeedsCow(Lookup(p0.pt, PageNumber(utf.faultVa)))
  {
  }
}

=== FILE: frames.dfy ===
/** The saved execution context of a trap, the fault frame delivered to
    user code, and the environment record the trap code reads and updates. */
module Frames {
  import opened Machine
  import opened Paging

  /** The general registers in the order `pusha` stores them. */
  datatype PushRegs = PushRegs(edi: u32, esi: u32, ebp: u32, oesp: u32, ebx: u32, edx: u32, ecx: u32, eax: u32)

  /** A trapped execution context (segment padding words omitted). */
  datatype Trapframe = Trapframe(
    regs: PushRegs,
    es: u16,
    ds: u16,
    trapno: u32,
    err: u32,
    eip: u32,
    cs: u16,
    eflags: u32,
    esp: u32,
    ss: u16)

  /** The page-fault frame written on the user exception stack. */
  datatype UTrapframe = UTrapframe(
    faultVa: u32,
    err: u32,
    regs: PushRegs,
    eip: u32,
    eflags: u32,
    esp: u32)

  /** Byte size of a UTrapframe: fault address, error code, eight registers,
      eip, eflags, esp, four bytes each. */
  const UTF_SIZE: nat := 4 + 4 + 8 * 4 + 4 + 4 + 4

  datatype EnvStatus = EnvFree | EnvRunnable | EnvNotRunnable

  /** An environment as the trap code sees it: its saved frame, status,
      registered page-fault upcall (0 for none) and address space. */
  datatype Env = Env(id: nat, tf: Trapframe, status: EnvStatus, pgfaultUpcall: u32, space: Space)

  /** Why the kernel halts. */
  datatype PanicReason =
    | NoCurrentEnv            // assert(curenv) failed
    | KernelPageFault         // page fault at kernel privilege
    | UnhandledTrapInKernel   // unexpected vector with the kernel code selector
    | SyscallReturnedInval    // assert(syscall_ret != -E_INVAL) failed
    /** The unexpected-trap path destroys the current environment when there
        is none; the destroy call dereferences the missing record. */
    | DestroyWithoutEnv

  /** A trap came from user mode when its code selector carries privilege 3. */
  predicate FromUser(tf: Trapframe)
  {
    Cpl(tf.cs) == 3
  }
}

=== FILE: idt.dfy ===
/** The interrupt descriptor table that trap initialisation builds: 256
    gates, each binding a vector to an entry trampoline, a code selector,
    a gate kind (trap or interrupt) and a descriptor privilege level. */
module Idt {
  import opened Machine
  import opened Vectors

  const IDT_ENTRIES: nat := 256

  /** The assembly entry points a gate can name. */
  datatype Handler =
    | NoHandler
    | DivideError | DebugException | Nmi | BreakpointEntry | Overflow | BoundsCheck
    | IllegalOpcode | DeviceNotAvailable | DoubleFault | InvalidTss | SegmentNotPresent
    | StackException | GeneralProtectionFault | PageFaultEntry | FloatingPointError
    | AlignmentCheck | MachineCheck | SimdFloatingPointError
    | SystemCall | Catchall | IrqTimer | IrqKbd | IrqIde

  datatype Gate = Gate(present: bool, istrap: bool, sel: u16, handler: Handler, dpl: nat)

  /** The zero-initialised table entry: not present. */
  const EmptyGate: Gate := Gate(false, false, 0, NoHandler, 0)

  function EmptyIdt(): (idt: seq<Gate>)
    ensures |idt| == IDT_ENTRIES
    ensures forall v :: 0 <= v < |idt| ==> !idt[v].present
  {
    seq(IDT_ENTRIES, v => EmptyGate)
  }

  /** One gate assignment of the initialisation code: vector, trap flag,
      selector, entry point, privilege level. */
  datatype Assign = Assign(vector: nat, istrap: bool, sel: u16, handler: Handler, dpl: nat)

  function GateOf(a: Assign): Gate
  {
    Gate(true, a.istrap, a.sel, a.handler, a.dpl)
  }

  /** The processor exceptions, all interrupt gates, only the breakpoint
      callable from user mode. */
  const ExceptionGates: seq<Assign> := [
    Assign(T_DIVIDE, false, GD_KT, DivideError, 0),
    Assign(T_DEBUG, false, GD_KT, DebugException, 0),
    Assign(T_NMI, false, GD_KT, Nmi, 0),
    Assign(T_BRKPT, false, GD_KT, BreakpointEntry, 3),
    Assign(T_OFLOW, false, GD_KT, Overflow, 0),
    Assign(T_BOUND, false, GD_KT, BoundsCheck, 0),
    Assign(T_ILLOP, false, GD_KT, IllegalOpcode, 0),
    Assign(T_DEVICE, false, GD_KT, DeviceNotAvailable, 0),
    Assign(T_DBLFLT, false, GD_KT, DoubleFault, 0),
    Assign(T_TSS, false, GD_KT, InvalidTss, 0),
    Assign(T_SEGNP, false, GD_KT, SegmentNotPresent, 0),
    Assign(T_STACK, false, GD_KT, StackException, 0),
    Assign(T_GPFLT, false, GD_KT, GeneralProtectionFault, 0),
    Assign(T_PGFLT, false, GD_KT, PageFaultEntry, 0),
    Assign(T_FPERR, false, GD_KT, FloatingPointError, 0),
    Assign(T_ALIGN, false, GD_KT, AlignmentCheck, 0),
    Assign(T_MCHK, false, GD_KT, MachineCheck, 0),
    Assign(T_SIMDERR, false, GD_KT, SimdFloatingPointError, 0)
  ]

  const SyscallGate: Assign := Assign(T_SYSCALL, false, GD_KT, SystemCall, 3)
  const CatchallGate: Assign := Assign(T_DEFAULT, false, GD_KT, Catchall, 0)

  const IrqGates: seq<Assign> := [
    Assign(IRQ_OFFSET + IRQ_TIMER, false, GD_KT, IrqTimer, 0),
    Assign(IRQ_OFFSET + IRQ_KBD, false, GD_KT, IrqKbd, 0),
    Assign(IRQ_OFFSET + IRQ_IDE, false, GD_KT, IrqIde, 0)
  ]

  /** The assignments exactly as the initialisation code makes them,
      including the catch-all at vector T_DEFAULT. */
  const AsWrittenGates: seq<Assign> := ExceptionGates + [SyscallGate, CatchallGate] + IrqGates

  /** The same assignments without the catch-all, whose vector lies outside
      the table. */
  const InstalledGates: seq<Assign> := ExceptionGates + [SyscallGate] + IrqGates

  function VectorsOf(asg: seq<Assign>): set<nat>
  {
    set a | a in asg :: a.vector
  }

  /** One table write `idt[a.vector] = gate`; the index must lie inside the
      256-entry table. */
  function SetGate(idt: seq<Gate>, a: Assign): (r: seq<Gate>)
    requires |idt| == IDT_ENTRIES && a.vector < IDT_ENTRIES
    ensures |r| == IDT_ENTRIES
    ensures r[a.vector] == GateOf(a) && r[a.vector].present
    ensures forall v :: 0 <= v < IDT_ENTRIES && v != a.vector ==> r[v] == idt[v]
  {
    idt[a.vector := GateOf(a)]
  }

  /** Writes the assignments in order, giving up (None) at the first whose
      vector lies outside the table: in the C code that write lands past the
      end of the array. */
  function InstallChecked(idt: seq<Gate>, asg: seq<Assign>): (r: Option<seq<Gate>>)
    requires |idt| == IDT_ENTRIES
    ensures r.Some? <==> forall a :: a in asg ==> a.vector < IDT_ENTRIES
    ensures r.Some? ==> (forall a :: a in asg ==> a.vector < IDT_ENTRIES) && r.value == Install(idt, asg)
    decreases |asg|
  {
    if asg == [] then Some(idt)
    else if asg[0].vector >= IDT_ENTRIES then None
    else InstallChecked(SetGate(idt, asg[0]), asg[1..])
  }

  /** Any out-of-range assignment anywhere in the list makes the checked
      installation fail. */
  lemma {:induction false} InstallCheckedOverruns(idt: seq<Gate>, asg: seq<Assign>, i: nat)
    requires |idt| == IDT_ENTRIES
    requires i < |asg| && asg[i].vector >= IDT_ENTRIES
    ensures InstallChecked(idt, asg) == None
    decreases |asg|
  {
    if i > 0 && asg[0].vector < IDT_ENTRIES {
      InstallCheckedOverruns(SetGate(idt, asg[0]), asg[1..], i - 1);
    }
  }

  /** The initialisation as written: the catch-all write to vector 500 of a
      256-entry table. */
  function IdtInitAsWritten(): Option<seq<Gate>>
  {
    InstallChecked(EmptyIdt(), AsWrittenGates)
  }

  /** The gate setup as written never completes inside the table. */
  lemma AsWrittenIdtInitOverruns()
    ensures IdtInitAsWritten() == None
  {
    assert AsWrittenGates[|ExceptionGates| + 1] == CatchallGate;
    InstallCheckedOverruns(EmptyIdt(), AsWrittenGates, |ExceptionGates| + 1);
  }

  /** The vectors of a non-empty list: its head's and its tail's. */
  lemma VectorsOfCons(asg: seq<Assign>)
    requires asg != []
    ensures VectorsOf(asg) == {asg[0].vector} + VectorsOf(asg[1..])
  {
  }

  /** A gate the tail of a list wrote is a gate the whole list wrote. */
  lemma TailWitness(asg: seq<Assign>, r: seq<Gate>, v: nat)
    requires asg != [] && v < |r|
    requires exists j :: 0 <= j < |asg[1..]| && asg[1..][j].vector == v && r[v] == GateOf(asg[1..][j])
    ensures exists i :: 0 <= i < |asg| && asg[i].vector == v && r[v] == GateOf(asg[i])
  {
  }

  /** Writes the assignments in order; a later write to the same vector
      replaces an earlier one. */
  function Install(idt: seq<Gate>, asg: seq<Assign>): (r: seq<Gate>)
    requires |idt| == IDT_ENTRIES
    requires forall a :: a in asg ==> a.vector < IDT_ENTRIES
    ensures |r| == IDT_ENTRIES
    ensures forall v :: 0 <= v < IDT_ENTRIES && v !in VectorsOf(asg) ==> r[v] == idt[v]
    ensures forall v :: 0 <= v < IDT_ENTRIES && v in VectorsOf(asg) ==>
      exists i :: 0 <= i < |asg| && asg[i].vector == v && r[v] == GateOf(asg[i])
    decreases |asg|
  {
    if asg == [] then idt
    else
      var r := Install(SetGate(idt, asg[0]), asg[1..]);
      VectorsOfCons(asg);
      assert forall v :: 0 <= v < IDT_ENTRIES && v in VectorsOf(asg[1..]) ==>
        exists i :: 0 <= i < |asg| && asg[i].vector == v && r[v] == GateOf(asg[i]) by {
        forall v | 0 <= v < IDT_ENTRIES && v in VectorsOf(asg[1..])
          ensures exists i :: 0 <= i < |asg| && asg[i].vector == v && r[v] == GateOf(asg[i])
        {
          TailWitness(asg, r, v);
        }
      }
      assert asg[0].vector !in VectorsOf(asg[1..]) ==> r[asg[0].vector] == GateOf(asg[0]);
      r
  }

  /** Assignment `i` is the last one in the list to target its vector. */
  predicate LastWrite(asg: seq<Assign>, i: nat)
    requires i < |asg|
  {
    forall j :: i < j < |asg| ==> asg[j].vector != asg[i].vector
  }

  /** The last write to a vector is the gate the table ends up holding. */
  lemma {:induction false} InstallLastWriteWins(idt: seq<Gate>, asg: seq<Assign>, i: nat)
    requires |idt| == IDT_ENTRIES
    requires forall a :: a in asg ==> a.vector < IDT_ENTRIES
    requires i < |asg| && LastWrite(asg, i)
    ensures Install(idt, asg)[asg[i].vector] == GateOf(asg[i])
    decreases |asg|
  {
    var idt1 := SetGate(idt, asg[0]);
    if i == 0 {
      assert asg[0].vector !in VectorsOf(asg[1..]);
    } else {
      assert LastWrite(asg[1..], i - 1);
      InstallLastWriteWins(idt1, asg[1..], i - 1);
    }
  }

  /** A gate assignment obeys the kernel's policy: kernel code selector,
      interrupt gate, and privilege 3 exactly for the vectors user code may
      raise with INT n (breakpoint and system call), privilege 0 otherwise. */
  predicate PolicyGate(v: nat, g: Gate)
  {
    && g.present
    && g.sel == GD_KT
    && !g.istrap
    && (g.dpl == 3 <==> v == T_BRKPT || v == T_SYSCALL)
    && (g.dpl == 0 || g.dpl == 3)
  }

  /** The vectors the active setup installs. */
  const InstalledVectors: set<nat> :=
    {T_DIVIDE, T_DEBUG, T_NMI, T_BRKPT, T_OFLOW, T_BOUND, T_ILLOP, T_DEVICE, T_DBLFLT,
     T_TSS, T_SEGNP, T_STACK, T_GPFLT, T_PGFLT, T_FPERR, T_ALIGN, T_MCHK, T_SIMDERR,
     T_SYSCALL, IRQ_OFFSET + IRQ_TIMER, IRQ_OFFSET + IRQ_KBD, IRQ_OFFSET + IRQ_IDE}

  /** Every active assignment lies inside the table and obeys the policy. */
  lemma InstalledGatesObeyPolicy()
    ensures forall a :: a in InstalledGates ==> a.vector < IDT_ENTRIES && PolicyGate(a.vector, GateOf(a))
  {
    forall a | a in InstalledGates
      ensures a.vector < IDT_ENTRIES && PolicyGate(a.vector, GateOf(a))
    {
      if a in ExceptionGates {
      } else if a == SyscallGate {
      } else {
        assert a in IrqGates;
      }
    }
  }

  /** Every installed vector has an active assignment. */
  lemma InstalledVectorsAssigned()
    ensures forall v :: v in InstalledVectors ==> v in VectorsOf(InstalledGates)
  {
    var g := InstalledGates;
    assert forall k :: 0 <= k < |ExceptionGates| ==> g[k] == ExceptionGates[k];
    assert g[18] == SyscallGate;
    assert g[19] == IrqGates[0] && g[20] == IrqGates[1] && g[21] == IrqGates[2];
    forall v | v in InstalledVectors
      ensures v in VectorsOf(g)
    {
      var k := if v < 9 then v else if v < 15 then v - 1 else if v < 20 then v - 2
               else if v == T_SYSCALL then 18 else if v == 32 then 19 else if v == 33 then 20 else 21;
      assert g[k].vector == v;
      assert g[k] in g;
    }
  }

  /** Every active assignment targets an installed vector. */
  lemma AssignedVectorsInstalled()
    ensures forall v :: v in VectorsOf(InstalledGates) ==> v in InstalledVectors
  {
  }

  /** The active assignments cover exactly the installed vectors. */
  lemma InstalledGatesCover()
    ensures VectorsOf(InstalledGates) == InstalledVectors
  {
    InstalledVectorsAssigned();
    AssignedVectorsInstalled();
  }

  /** The gate table trap initialisation builds, with the out-of-range
      catch-all left out. */
  function IdtInit(): (idt: seq<Gate>)
    ensures |idt| == IDT_ENTRIES
    ensures forall v :: 0 <= v < IDT_ENTRIES ==> (idt[v].present <==> v in InstalledVectors)
    ensures forall v :: 0 <= v < IDT_ENTRIES && idt[v].present ==> PolicyGate(v, idt[v])
  {
    InstalledGatesObeyPolicy();
    InstallObeysPolicy(EmptyIdt(), InstalledGates);
    InstalledGatesCover();
    Install(EmptyIdt(), InstalledGates)
  }

  /** Installing policy-abiding assignments into an empty table gives a
      table whose present gates are exactly the assigned vectors, each
      abiding by the policy. */
  lemma InstallObeysPolicy(idt: seq<Gate>, asg: seq<Assign>)
    requires |idt| == IDT_ENTRIES
    requires forall v :: 0 <= v < IDT_ENTRIES ==> !idt[v].present
    requires forall a :: a in asg ==> a.vector < IDT_ENTRIES && PolicyGate(a.vector, GateOf(a))
    ensures forall v :: 0 <= v < IDT_ENTRIES ==> (Install(idt, asg)[v].present <==> v in VectorsOf(asg))
    ensures forall v :: 0 <= v < IDT_ENTRIES && Install(idt, asg)[v].present ==> PolicyGate(v, Install(idt, asg)[v])
  {
  }

  /** Section 6.12.1.1 of the Intel SDM, volume 3A: a software INT n reaches
      its handler only through a present gate whose privilege level is at
      least the caller's current privilege level. */
  predicate SoftwareIntAllowed(idt: seq<Gate>, v: nat, cpl: nat)
    requires |idt| == IDT_ENTRIES
  {
    v < IDT_ENTRIES && idt[v].present && cpl <= idt[v].dpl
  }

  /** In any table built by the policy, user code (privilege 3) can raise
      exactly the breakpoint and system-call vectors, and the kernel can
      raise every installed vector. */
  lemma {:induction false} PolicyTableInvocable(idt: seq<Gate>, v: nat)
    requires |idt| == IDT_ENTRIES
    requires forall u :: 0 <= u < IDT_ENTRIES ==> (idt[u].present <==> u in InstalledVectors)
    requires forall u :: 0 <= u < IDT_ENTRIES && idt[u].present ==> PolicyGate(u, idt[u])
    ensures SoftwareIntAllowed(idt, v, 3) <==> v == T_BRKPT || v == T_SYSCALL
    ensures SoftwareIntAllowed(idt, v, 0) <==> v in InstalledVectors
  {
  }

  /** The table trap initialisation builds lets user code raise only the
      breakpoint and system-call vectors. */
  lemma UserInvocableVectors(v: nat)
    ensures SoftwareIntAllowed(IdtInit(), v, 3) <==> v == T_BRKPT || v == T_SYSCALL
    ensures SoftwareIntAllowed(IdtInit(), v, 0) <==> v in InstalledVectors
  {
    PolicyTableInvocable(IdtInit(), v);
  }
}

=== FILE: kernfault.dfy ===
/** The kernel side of page-fault handling: a fault at kernel privilege is
    fatal; a user fault is reflected to the environment's registered upcall
    on its exception stack, or destroys the environment. */
module KernFault {
  import opened Machine
  import opened Paging
  import opened Frames

  datatype PfOutcome =
    | PfPanic(why: PanicReason)
    /** The environment is destroyed. */
    | PfDestroy
    /** Resume the environment from `newTf`, with `utf` written at `utfAddr`. */
    | PfRedirect(newTf: Trapframe, utfAddr: u32, utf: UTrapframe)

  /** A fault counts as recursive when the trap-time stack pointer lies above
      the normal user stack: anywhere in the guard page, the exception
      stack, or higher. */
  predicate RecursiveFault(esp: u32)
  {
    esp > USTACKTOP
  }

  /** A fault taken with the stack pointer anywhere on the exception stack
      page, or in the guard page below it, counts as recursive; one taken on
      the normal user stack or below does not. */
  lemma RecursiveFaultRegions(esp: u32)
    ensures UXSTACKTOP - PGSIZE <= esp < UXSTACKTOP ==> RecursiveFault(esp)
    ensures USTACKTOP < esp < UXSTACKTOP - PGSIZE ==> RecursiveFault(esp)
    ensures esp <= USTACKTOP ==> !RecursiveFault(esp)
  {
  }

  /** The stack top the new frame is pushed under. */
  function FrameTop(esp: u32): nat
  {
    if RecursiveFault(esp) then esp else UXSTACKTOP
  }

  /** Address of the fault frame: pushed under the trap-time stack pointer on
      a recursive fault, under the top of the exception stack otherwise,
      with one 4-byte scratch word left between the frame and that top. */
  function FramePlacement(esp: u32): (addr: u32)
    ensures addr + UTF_SIZE + 4 == FrameTop(esp)
    ensures addr < UXSTACKTOP || RecursiveFault(esp)
    ensures !RecursiveFault(esp) ==> UXSTACKTOP - PGSIZE <= addr && addr + UTF_SIZE + 4 == UXSTACKTOP
  {
    if RecursiveFault(esp) then esp - UTF_SIZE - 4 else UXSTACKTOP - UTF_SIZE - 4
  }

  /** The frame the handler hands to user code: the trap-time registers,
      instruction pointer, flags and stack pointer, the error code and the
      faulting address. */
  function FaultFrame(tf: Trapframe, faultVa: u32): UTrapframe
  {
    UTrapframe(faultVa, tf.err, tf.regs, tf.eip, tf.eflags, tf.esp)
  }

  /** Handle a page fault described by `tf` at address `faultVa`; `cur` is
      the current environment.  Frame placement uses the environment's saved
      stack pointer and the frame contents come from `tf`; for a user fault
      the trap entry has made the two the same frame. */
  function PageFaultHandler(tf: Trapframe, cur: Option<Env>, faultVa: u32): (r: PfOutcome)
    ensures r.PfPanic? <==> !FromUser(tf) || cur.None?
    ensures !FromUser(tf) ==> r == PfPanic(KernelPageFault)
    ensures FromUser(tf) && cur.Some? && cur.value.pgfaultUpcall == 0 ==> r == PfDestroy
    ensures FromUser(tf) && cur.Some? && cur.value.pgfaultUpcall != 0 ==>
      (r.PfRedirect? <==> RangePermitted(cur.value.space.pt, FramePlacement(cur.value.tf.esp), UTF_SIZE + 1, PermPUW))
    ensures r.PfRedirect? ==> cur.Some? && cur.value.pgfaultUpcall != 0
    ensures r.PfRedirect? ==> RangePermitted(cur.value.space.pt, r.utfAddr, UTF_SIZE + 1, PermPUW)
    ensures r.PfRedirect? ==> r.utfAddr + UTF_SIZE + 4 == FrameTop(cur.value.tf.esp)
    ensures r.PfRedirect? ==>
      && r.utf.faultVa == faultVa && r.utf.err == tf.err && r.utf.regs == tf.regs
      && r.utf.eip == tf.eip && r.utf.eflags == tf.eflags && r.utf.esp == tf.esp
    ensures r.PfRedirect? ==> r.newTf == tf.(esp := r.utfAddr, eip := cur.value.pgfaultUpcall)
  {
    if !FromUser(tf) then PfPanic(KernelPageFault)
    else if cur.None? then PfPanic(NoCurrentEnv)
    else
      var e := cur.value;
      if e.pgfaultUpcall == 0 then PfDestroy
      else
        var addr := FramePlacement(e.tf.esp);
        if !RangePermitted(e.space.pt, addr, UTF_SIZE + 1, PermPUW) then PfDestroy
        else PfRedirect(tf.(esp := addr, eip := e.pgfaultUpcall), addr, FaultFrame(tf, faultVa))
  }

  /** What returning from the upcall reinstates: the registers, flags,
      instruction and stack pointer saved in the fault frame, on top of the
      redirected frame. */
  function ResumeFrom(redirected: Trapframe, utf: UTrapframe): Trapframe
  {
    redirected.(regs := utf.regs, eip := utf.eip, eflags := utf.eflags, esp := utf.esp)
  }

  /** The fault frame and the redirected frame together hold the whole
      trap-time context: nothing the interrupted code can observe is lost. */
  lemma RedirectIsResumable(tf: Trapframe, cur: Option<Env>, faultVa: u32)
    requires PageFaultHandler(tf, cur, faultVa).PfRedirect?
    ensures var r := PageFaultHandler(tf, cur, faultVa); ResumeFrom(r.newTf, r.utf) == tf
  {
  }

  /** A nested fault pushes its frame wholly below the stack pointer of the
      upcall it interrupted, with the scratch word in between, so the frame
      already on the exception stack is not overwritten. */
  lemma NestedFrameBelowPrior(tf: Trapframe, cur: Option<Env>, faultVa: u32)
    requires PageFaultHandler(tf, cur, faultVa).PfRedirect?
    requires RecursiveFault(cur.value.tf.esp)
    ensures var r := PageFaultHandler(tf, cur, faultVa);
      r.utfAddr + UTF_SIZE == cur.value.tf.esp - 4 && r.utfAddr < cur.value.tf.esp
  {
  }

  /** Without a registered upcall a user fault never produces a fault frame. */
  lemma NoUpcallNeverRedirects(tf: Trapframe, cur: Option<Env>, faultVa: u32)
    requires cur.Some? && cur.value.pgfaultUpcall == 0
    ensures !PageFaultHandler(tf, cur, faultVa).PfRedirect?
  {
  }
}

=== FILE: machine.dfy ===
/** Machine words, the memory-layout constants of the kernel, and the small
    bit-level helpers the trap and fork code use.  Integers are unbounded
    here, so 32-bit and 16-bit values are subset types and every C
    conversion between signed and unsigned words is written out. */
module Machine {

  datatype Option<+T> = None | Some(value: T)

  type u16 = x: int | 0 <= x < 0x1_0000
  type u32 = x: int | 0 <= x < 0x1_0000_0000
  type i32 = x: int | -0x8000_0000 <= x < 0x8000_0000

  const PGSIZE: nat := 4096
  const NPTENTRIES: nat := 1024
  const PTSIZE: nat := PGSIZE * NPTENTRIES

  /** Top of user-accessible memory; the user exception stack ends here. */
  const UTOP: nat := 0xEEC0_0000
  const UXSTACKTOP: nat := UTOP
  /** The normal user stack ends two pages below: one exception-stack page
      and one never-mapped guard page lie in between. */
  const USTACKTOP: nat := UTOP - 2 * PGSIZE
  const UTEMP: nat := PTSIZE
  /** Scratch address the user-level fault handler maps its new page at. */
  const PFTEMP: nat := UTEMP + PTSIZE - PGSIZE

  /** Kernel text segment selector. */
  const GD_KT: u16 := 0x08

  const E_INVAL: nat := 3
  /** Page-fault error-code bit: the faulting access was a write. */
  const FEC_WR: nat := 0x2

  /** The C test `(x & mask) != 0` for a single-bit mask. */
  function HasBit(x: nat, mask: nat): bool
    requires mask > 0
  {
    (x / mask) % 2 == 1
  }

  /** The privilege level a code selector carries, the C `cs & 3`. */
  function Cpl(cs: u16): (r: nat)
    ensures r < 4
  {
    cs % 4
  }

  /** The C assignment of a signed 32-bit value to an unsigned 32-bit field:
      the bit pattern is kept, so the value is taken modulo 2^32. */
  function ToU32(x: i32): (r: u32)
    ensures (r - x) % 0x1_0000_0000 == 0
    ensures x >= 0 <==> r < 0x8000_0000
  {
    if x < 0 then x + 0x1_0000_0000 else x
  }

  /** Virtual page number of an address (the C VPN). */
  function PageNumber(va: nat): nat
  {
    va / PGSIZE
  }

  /** Page-directory index of a virtual page number (the C VPD of its
      address). */
  function PageDirIndex(vpn: nat): nat
  {
    vpn / NPTENTRIES
  }

  /** Number of virtual pages below UTOP. */
  const NUPAGES: nat := UTOP / PGSIZE
  /** Page number of the user exception stack page. */
  const XSTACK_VPN: nat := (UXSTACKTOP - PGSIZE) / PGSIZE
  const PFTEMP_VPN: nat := PFTEMP / PGSIZE
}

=== FILE: paging.dfy ===
/** Page-table entries, per-environment address spaces and physical memory,
    seen through the two page-level kernel calls the fault handler and fork
    use (allocate a page, map an existing page). */
module Paging {
  import opened Machine

  const PTE_P: nat := 0x1
  const PTE_W: nat := 0x2
  const PTE_U: nat := 0x4
  /** Copy-on-write marker: bit 11, one of the three bits (9-11) the
      processor ignores in a 32-bit page-table entry. */
  const PTE_COW: nat := 0x800

  datatype Flags = Flags(p: bool, w: bool, u: bool, cow: bool)

  const PermPU: Flags := Flags(true, false, true, false)
  const PermPUW: Flags := Flags(true, true, true, false)
  const PermPUCow: Flags := Flags(true, false, true, true)

  /** A page-table entry: a physical frame number and its flags. */
  datatype Pte = Pte(frame: nat, flags: Flags)

  /** What an unmapped page number reads as: all flags clear. */
  const NoPte: Pte := Pte(0, Flags(false, false, false, false))

  /** The 32-bit layout of an entry: frame number in bits 12-31, flags in
      the low bits. */
  function EncodePte(e: Pte): (x: u32)
    requires e.frame < 0x10_0000
    ensures x / PGSIZE == e.frame
    ensures HasBit(x, PTE_P) == e.flags.p && HasBit(x, PTE_W) == e.flags.w
    ensures HasBit(x, PTE_U) == e.flags.u && HasBit(x, PTE_COW) == e.flags.cow
  {
    var p := if e.flags.p then 1 else 0;
    var w := if e.flags.w then 1 else 0;
    var u := if e.flags.u then 1 else 0;
    var c := if e.flags.cow then 1 else 0;
    EncodeFields(e.frame, p, w, u, c);
    e.frame * PGSIZE + p * PTE_P + w * PTE_W + u * PTE_U + c * PTE_COW
  }

  /** Division by a power of two: the quotient and remainder of `x` are
      `q` and `r` when `x` is `q` whole units and `r` below a unit. */
  lemma ShiftSplit(x: nat, q: nat, r: nat, unit: nat)
    requires unit == 2 || unit == 4 || unit == 2048 || unit == 4096
    requires r < unit && x == unit * q + r
    ensures x / unit == q && x % unit == r
  {
    if unit == 2 {
      assert x / 2 == q;
    } else if unit == 4 {
      assert x / 4 == q;
    } else if unit == 2048 {
      assert x / 2048 == q;
    } else {
      assert x / 4096 == q;
    }
  }

  /** Each flag of the encoded word sits in its own bit. */
  lemma EncodeFields(f: nat, p: nat, w: nat, u: nat, c: nat)
    requires p < 2 && w < 2 && u < 2 && c < 2
    ensures var x := f * 4096 + p + 2 * w + 4 * u + 2048 * c;
      x / 4096 == f && (x / 1) % 2 == p && (x / 2) % 2 == w && (x / 4) % 2 == u && (x / 2048) % 2 == c
  {
    var x := f * 4096 + p + 2 * w + 4 * u + 2048 * c;
    ShiftSplit(x, f, p + 2 * w + 4 * u + 2048 * c, 4096);
    ShiftSplit(x, f * 2048 + w + 2 * u + 1024 * c, p, 2);
    ShiftSplit(f * 2048 + w + 2 * u + 1024 * c, f * 1024 + u + 512 * c, w, 2);
    ShiftSplit(x, f * 1024 + u + 512 * c, p + 2 * w, 4);
    ShiftSplit(f * 1024 + u + 512 * c, f * 512 + 256 * c, u, 2);
    ShiftSplit(x, f * 2 + c, p + 2 * w + 4 * u, 2048);
    ShiftSplit(f * 2 + c, f, c, 2);
  }

  function DecodePte(x: u32): Pte
  {
    Pte(x / PGSIZE, Flags(HasBit(x, PTE_P), HasBit(x, PTE_W), HasBit(x, PTE_U), HasBit(x, PTE_COW)))
  }

  /** Decoding an encoded entry gives it back: the four flags and the frame
      number occupy disjoint bits. */
  lemma DecodeEncode(e: Pte)
    requires e.frame < 0x10_0000
    ensures DecodePte(EncodePte(e)) == e
  {
  }

  /** The C test `(pte & perm) == perm`. */
  predicate HasPerm(f: Flags, perm: Flags)
  {
    (perm.p ==> f.p) && (perm.w ==> f.w) && (perm.u ==> f.u) && (perm.cow ==> f.cow)
  }

  /** Page tables are keyed by virtual page number. */
  type PageTable = map<nat, Pte>

  /** An address space: the present page-directory indices and the
      page-table entries. */
  datatype Space = Space(pde: set<nat>, pt: PageTable)

  function Lookup(pt: PageTable, vpn: nat): Pte
  {
    if vpn in pt then pt[vpn] else NoPte
  }

  /** Every page-table entry lives under a present page-directory entry. */
  predicate WellFormed(s: Space)
  {
    forall v :: v in s.pt ==> PageDirIndex(v) in s.pde
  }

  /** No entry is at once copy-on-write and hardware-writable. */
  predicate CowReadOnly(s: Space)
  {
    forall v :: v in s.pt ==> !(s.pt[v].flags.cow && s.pt[v].flags.w)
  }

  type Page = seq<bv8>
  /** Physical memory: contents of each allocated frame. */
  type Mem = map<nat, Page>

  function ZeroPage(): Page
  {
    seq(PGSIZE, i => 0 as bv8)
  }

  function Read(mem: Mem, frame: nat): Page
  {
    if frame in mem then mem[frame] else ZeroPage()
  }

  /** The kernel's page-map call: map the frame behind `srcVpn` of `src` at
      `dstVpn` of `dst` with `perm`.  It fails when the source page is not
      present, or when the kernel reports an error (`fails`, for instance no
      memory for a new page table). */
  function PageMap(src: Space, srcVpn: nat, dst: Space, dstVpn: nat, perm: Flags, fails: bool): (r: Option<Space>)
    ensures r.Some? <==> !fails && Lookup(src.pt, srcVpn).flags.p
    ensures r.Some? ==> Lookup(r.value.pt, dstVpn) == Pte(Lookup(src.pt, srcVpn).frame, perm)
    ensures r.Some? ==> forall v :: v != dstVpn ==> Lookup(r.value.pt, v) == Lookup(dst.pt, v)
    ensures r.Some? ==> r.value.pde == dst.pde + {PageDirIndex(dstVpn)}
    ensures r.Some? && WellFormed(dst) ==> WellFormed(r.value)
  {
    var e := Lookup(src.pt, srcVpn);
    if fails || !e.flags.p then None
    else Some(Space(dst.pde + {PageDirIndex(dstVpn)}, dst.pt[dstVpn := Pte(e.frame, perm)]))
  }

  /** The kernel's page-allocate call: map a freshly zeroed frame, chosen by
      the allocator (`None` when it is out of memory), at `vpn`. */
  function PageAlloc(s: Space, mem: Mem, vpn: nat, perm: Flags, frame: Option<nat>): (r: Option<(Space, Mem)>)
    ensures r.Some? <==> frame.Some?
    ensures r.Some? ==> Lookup(r.value.0.pt, vpn) == Pte(frame.value, perm)
    ensures r.Some? ==> forall v :: v != vpn ==> Lookup(r.value.0.pt, v) == Lookup(s.pt, v)
    ensures r.Some? ==> r.value.0.pde == s.pde + {PageDirIndex(vpn)}
    ensures r.Some? ==> Read(r.value.1, frame.value) == ZeroPage()
    ensures r.Some? ==> forall f :: f in mem && f != frame.value ==> f in r.value.1 && r.value.1[f] == mem[f]
    ensures r.Some? ==> forall f :: f != frame.value ==> Read(r.value.1, f) == Read(mem, f)
  {
    match frame
    case None => None
    case Some(f) =>
      Some((Space(s.pde + {PageDirIndex(vpn)}, s.pt[vpn := Pte(f, perm)]), mem[f := ZeroPage()]))
  }

  /** The test one address of a user-memory check makes. */
  predicate PermittedAt(pt: PageTable, a: nat, perm: Flags)
  {
    HasPerm(Lookup(pt, PageNumber(a)).flags, perm)
  }

  /** Every byte of `[va, va + len)` lies in a page whose entry carries
      `perm`. */
  predicate RangePermitted(pt: PageTable, va: nat, len: nat, perm: Flags)
  {
    forall a :: va <= a < va + len ==> PermittedAt(pt, a, perm)
  }

  /** The byte-level condition is the page-level one the kernel's check
      walks: every page from the one holding `va` to the one holding the
      last byte carries `perm`. */
  lemma RangePermittedByPages(pt: PageTable, va: nat, len: nat, perm: Flags)
    requires len > 0
    ensures RangePermitted(pt, va, len, perm) <==>
      forall vpn :: PageNumber(va) <= vpn <= PageNumber(va + len - 1) ==> HasPerm(Lookup(pt, vpn).flags, perm)
  {
    if RangePermitted(pt, va, len, perm) {
      forall vpn | PageNumber(va) <= vpn <= PageNumber(va + len - 1)
        ensures HasPerm(Lookup(pt, vpn).flags, perm)
      {
        var a := if vpn * PGSIZE < va then va else vpn * PGSIZE;
        assert PageNumber(a) == vpn;
        assert PermittedAt(pt, a, perm);
      }
    }
  }
}

=== FILE: trap.dfy ===
/** Trap entry and dispatch: a user-mode trap is first saved into the
    current environment, the vector picks a handler in a fixed order, and
    once a handler returns the environment is resumed or the scheduler is
    asked to run something else. */
module Trap {
  import opened Machine
  import opened Frames
  import opened Vectors
  import opened KernFault
  import opened Paging

  const TIMER_VECTOR: nat := IRQ_OFFSET + IRQ_TIMER

  /** A system call: call number and five arguments. */
  datatype SyscallArgs = SyscallArgs(num: u32, a1: u32, a2: u32, a3: u32, a4: u32, a5: u32)

  /** What the system-call implementation did with the current environment
      `cur` it was handed.  Either it returned `ret`, leaving the current
      environment as `cur` (its address space, upcall, status and saved frame
      may all have changed), or it left the kernel through the scheduler and
      never returned. */
  datatype SyscallEffect =
    | SysReturned(ret: i32, cur: Option<Env>)
    | SysNoReturn(cur: Option<Env>)

  /** The system-call implementation: arguments and current environment in,
      effect out. */
  type Syscalls = (SyscallArgs, Option<Env>) -> SyscallEffect

  /** The fault frame a redirected page fault writes on the user exception
      stack, and the address it is written at. */
  datatype Pushed = Pushed(addr: u32, utf: UTrapframe)

  /** Where dispatch leaves control. */
  datatype Dispatched =
    /** The handler returned, leaving the trap frame and current environment so. */
    | Returned(tf: Trapframe, cur: Option<Env>)
    /** The handler wrote `pushed` to user memory, resumed `env` itself and
        never returned. */
    | Ran(env: Env, pushed: Pushed)
    /** The handler went to the scheduler and never returned. */
    | Yielded(cur: Option<Env>)
    /** The breakpoint handler entered the kernel monitor. */
    | Monitor(tf: Trapframe)
    | Panicked(why: PanicReason)

  /** Where a trap finally leaves control. */
  datatype TrapOutcome =
    /** Resume `env`, after writing `pushed` to its memory if present. */
    | Run(env: Env, pushed: Option<Pushed>)
    | Yield(cur: Option<Env>)
    | EnterMonitor(tf: Trapframe)
    | Panic(why: PanicReason)

  /** Destroying an environment frees it. */
  function Destroy(e: Env): (d: Env)
    ensures d.status == EnvFree && d.id == e.id
  {
    e.(status := EnvFree)
  }

  /** The register convention of a system call: number in eax, arguments in
      edx, ecx, ebx, edi, esi. */
  function SyscallArgsOf(regs: PushRegs): (a: SyscallArgs)
    ensures a.num == regs.eax
    ensures [a.a1, a.a2, a.a3, a.a4, a.a5] == [regs.edx, regs.ecx, regs.ebx, regs.edi, regs.esi]
  {
    SyscallArgs(regs.eax, regs.edx, regs.ecx, regs.ebx, regs.edi, regs.esi)
  }

  /** The frame with `v` stored in eax. */
  function WithEax(t: Trapframe, v: u32): Trapframe
  {
    t.(regs := t.regs.(eax := v))
  }

  /** Route the trap described by `tf` to its handler; the first matching
      vector test wins: page fault, breakpoint, system call, timer, and
      otherwise the unexpected-trap path.  `faultVa` is the faulting address
      register, `sys` the system-call implementation.  For a user-mode trap
      `tf` is the current environment's saved frame, so a system call's
      result is stored in the frame the call left behind. */
  function Dispatch(tf: Trapframe, cur: Option<Env>, faultVa: u32, sys: Syscalls): (r: Dispatched)
    ensures tf.trapno == T_PGFLT ==>
      var pf := PageFaultHandler(tf, cur, faultVa);
      && (r.Panicked? <==> pf.PfPanic?)
      && (pf.PfDestroy? ==> r == Returned(tf, Some(Destroy(cur.value))))
      && (pf.PfPanic? ==> r == Panicked(pf.why))
      && (pf.PfRedirect? ==> r == Ran(cur.value.(tf := pf.newTf), Pushed(pf.utfAddr, pf.utf)))
    ensures tf.trapno == T_BRKPT ==> r == Monitor(tf)
    ensures tf.trapno == T_SYSCALL ==>
      var eff := sys(SyscallArgs(tf.regs.eax, tf.regs.edx, tf.regs.ecx, tf.regs.ebx, tf.regs.edi, tf.regs.esi), cur);
      && (eff.SysNoReturn? ==> r == Yielded(eff.cur))
      && (eff.SysReturned? ==> (r.Panicked? <==> eff.ret == -(E_INVAL as int)))
      && (eff.SysReturned? && eff.ret != -(E_INVAL as int) ==> r.Returned?)
      && (r.Returned? ==> eff.SysReturned? && r.tf.regs.eax == ToU32(eff.ret))
      && (r.Returned? && FromUser(tf) && eff.cur.Some? ==>
            r.tf == WithEax(eff.cur.value.tf, r.tf.regs.eax) && r.cur == Some(eff.cur.value.(tf := r.tf)))
      && (r.Returned? && !(FromUser(tf) && eff.cur.Some?) ==>
            r.tf == WithEax(tf, r.tf.regs.eax) && r.cur == eff.cur)
    ensures tf.trapno == TIMER_VECTOR ==> r == Yielded(cur)
    ensures tf.trapno !in {T_PGFLT, T_BRKPT, T_SYSCALL, TIMER_VECTOR} ==>
      && (r.Panicked? <==> tf.cs == GD_KT || cur.None?)
      && (tf.cs == GD_KT ==> r == Panicked(UnhandledTrapInKernel))
      && (!r.Panicked? ==> r == Returned(tf, Some(Destroy(cur.value))))
  {
    if tf.trapno == T_PGFLT then
      match PageFaultHandler(tf, cur, faultVa)
      case PfPanic(why) => Panicked(why)
      case PfDestroy => Returned(tf, Some(Destroy(cur.value)))
      case PfRedirect(newTf, addr, utf) => Ran(cur.value.(tf := newTf), Pushed(addr, utf))
    else if tf.trapno == T_BRKPT then
      Monitor(tf)
    else if tf.trapno == T_SYSCALL then
      match sys(SyscallArgsOf(tf.regs), cur)
      case SysNoReturn(c) => Yielded(c)
      case SysReturned(ret, c) =>
        if ret == -(E_INVAL as int) then Panicked(SyscallReturnedInval)
        else if FromUser(tf) && c.Some? then
          var tf2 := WithEax(c.value.tf, ToU32(ret));
          Returned(tf2, Some(c.value.(tf := tf2)))
        else Returned(WithEax(tf, ToU32(ret)), c)
    else if tf.trapno == TIMER_VECTOR then
      Yielded(cur)
    else if tf.cs == GD_KT then
      Panicked(UnhandledTrapInKernel)
    else if cur.None? then
      Panicked(DestroyWithoutEnv)
    else
      Returned(tf, Some(Destroy(cur.value)))
  }

  /** The current environment as dispatch sees it: after a user-mode trap it
      holds the trapped frame and is otherwise the same record. */
  function Snapshot(tf: Trapframe, cur: Option<Env>): (c: Option<Env>)
    requires FromUser(tf) ==> cur.Some?
    ensures FromUser(tf) ==>
      && c.Some? && c.value.tf == tf
      && c.value.id == cur.value.id && c.value.status == cur.value.status
      && c.value.pgfaultUpcall == cur.value.pgfaultUpcall && c.value.space == cur.value.space
    ensures !FromUser(tf) ==> c == cur
  {
    if FromUser(tf) then Some(cur.value.(tf := tf)) else cur
  }

  /** Take the trap described by `tf`.  When dispatch returns, the current
      environment is resumed if it exists and is runnable, and the scheduler
      runs otherwise.  An environment resumes only after a page fault it
      handles itself or after a system call that returned. */
  function Trap(tf: Trapframe, cur: Option<Env>, faultVa: u32, sys: Syscalls): (r: TrapOutcome)
    ensures FromUser(tf) && cur.None? ==> r == Panic(NoCurrentEnv)
    ensures !(FromUser(tf) && cur.None?) ==>
      var d := Dispatch(tf, Snapshot(tf, cur), faultVa, sys);
      d.Returned? ==>
        && (r.Run? <==> d.cur.Some? && d.cur.value.status == EnvRunnable)
        && (r.Run? ==> r == Run(d.cur.value, None))
        && (!r.Run? ==> r == Yield(d.cur))
    ensures !(FromUser(tf) && cur.None?) ==>
      var d := Dispatch(tf, Snapshot(tf, cur), faultVa, sys);
      && (d.Ran? ==> r == Run(d.env, Some(d.pushed)))
      && (d.Yielded? ==> r == Yield(d.cur))
      && (d.Monitor? ==> r == EnterMonitor(d.tf))
      && (d.Panicked? ==> r == Panic(d.why))
    ensures r.Run? ==> tf.trapno == T_PGFLT || tf.trapno == T_SYSCALL
    ensures r.Run? && tf.trapno == T_PGFLT ==>
      FromUser(tf) && cur.Some? &&
      r.env == cur.value.(tf := tf.(esp := r.env.tf.esp, eip := cur.value.pgfaultUpcall)) &&
      r.pushed == Some(Pushed(r.env.tf.esp, FaultFrame(tf, faultVa)))
    ensures r.Run? && tf.trapno == T_SYSCALL ==>
      !(FromUser(tf) && cur.None?) && r.pushed.None? &&
      var eff := sys(SyscallArgsOf(tf.regs), Snapshot(tf, cur));
      && eff.SysReturned? && eff.cur.Some? && eff.cur.value.status == EnvRunnable
      && (FromUser(tf) ==> r.env == eff.cur.value.(tf := WithEax(eff.cur.value.tf, ToU32(eff.ret))))
      && (!FromUser(tf) ==> r.env == eff.cur.value)
  {
    if FromUser(tf) && cur.None? then Panic(NoCurrentEnv)
    else
      match Dispatch(tf, Snapshot(tf, cur), faultVa, sys)
      case Returned(_, c) =>
        if c.Some? && c.value.status == EnvRunnable then Run(c.value, None) else Yield(c)
      case Ran(e, pushed) => Run(e, Some(pushed))
      case Yielded(c) => Yield(c)
      case Monitor(t) => EnterMonitor(t)
      case Panicked(why) => Panic(why)
  }

  /** A vector none of the handlers claims destroys a user environment and
      halts the kernel when it arrives with the kernel code selector. */
  lemma UnknownVectorPolicy(tf: Trapframe, cur: Option<Env>, faultVa: u32, sys: Syscalls)
    requires tf.trapno !in {T_PGFLT, T_BRKPT, T_SYSCALL, TIMER_VECTOR}
    ensures tf.cs == GD_KT ==> Trap(tf, cur, faultVa, sys) == Panic(UnhandledTrapInKernel)
    ensures FromUser(tf) && cur.Some? ==>
      Trap(tf, cur, faultVa, sys) == Yield(Some(Destroy(cur.value.(tf := tf))))
  {
  }

  /** The unexpected-trap path tests the whole selector, not its privilege
      bits: a kernel-privilege trap under any other selector destroys the
      current environment instead of halting. */
  lemma SelectorNotPrivilegeDecides(tf: Trapframe, cur: Option<Env>, faultVa: u32, sys: Syscalls)
    requires tf.trapno !in {T_PGFLT, T_BRKPT, T_SYSCALL, TIMER_VECTOR}
    requires Cpl(tf.cs) == 0 && tf.cs != GD_KT && cur.Some?
    ensures Trap(tf, cur, faultVa, sys) == Yield(Some(Destroy(cur.value)))
  {
  }

  /** A user system call that returns, leaves the saved frame alone and the
      environment runnable resumes that environment, with whatever address
      space and upcall the call gave it, at the same instruction and stack
      pointer, with the result in eax and every other register unchanged. */
  lemma SyscallResumes(tf: Trapframe, e: Env, faultVa: u32, sys: Syscalls)
    requires FromUser(tf) && tf.trapno == T_SYSCALL
    requires var eff := sys(SyscallArgsOf(tf.regs), Some(e.(tf := tf)));
      && eff.SysReturned? && eff.ret != -(E_INVAL as int)
      && eff.cur.Some? && eff.cur.value.status == EnvRunnable && eff.cur.value.tf == tf
    ensures var eff := sys(SyscallArgsOf(tf.regs), Some(e.(tf := tf)));
      var r := Trap(tf, Some(e), faultVa, sys);
      && r.Run?
      && r.env.space == eff.cur.value.space && r.env.pgfaultUpcall == eff.cur.value.pgfaultUpcall
      && r.env.tf.eip == tf.eip && r.env.tf.esp == tf.esp
      && r.env.tf.regs.eax == ToU32(eff.ret)
      && r.env.tf == WithEax(tf, r.env.tf.regs.eax)
  {
  }

  /** A user page fault with a registered upcall and a writable frame
      range writes the fault frame on the exception stack and resumes the
      environment at the upcall, with the stack pointer at that frame. */
  lemma RedirectedFaultResumes(tf: Trapframe, e: Env, faultVa: u32, sys: Syscalls)
    requires FromUser(tf) && tf.trapno == T_PGFLT && e.pgfaultUpcall != 0
    requires RangePermitted(e.space.pt, FramePlacement(tf.esp), UTF_SIZE + 1, PermPUW)
    ensures Trap(tf, Some(e), faultVa, sys) ==
      Run(e.(tf := tf.(esp := FramePlacement(tf.esp), eip := e.pgfaultUpcall)),
          Some(Pushed(FramePlacement(tf.esp), FaultFrame(tf, faultVa))))
  {
  }

  /** A system call that goes to the scheduler never resumes the trapped
      code here: the trap ends in the scheduler with the environment as the
      call left it. */
  lemma NoReturnSyscallYields(tf: Trapframe, cur: Option<Env>, faultVa: u32, sys: Syscalls)
    requires tf.trapno == T_SYSCALL && !(FromUser(tf) && cur.None?)
    requires sys(SyscallArgsOf(tf.regs), Snapshot(tf, cur)).SysNoReturn?
    ensures Trap(tf, cur, faultVa, sys) == Yield(sys(SyscallArgsOf(tf.regs), Snapshot(tf, cur)).cur)
  {
  }
}

=== FILE: vectors.dfy ===
/** Trap vector numbers and their printable names. */
module Vectors {
  import opened Machine

  const T_DIVIDE: nat := 0
  const T_DEBUG: nat := 1
  const T_NMI: nat := 2
  const T_BRKPT: nat := 3
  const T_OFLOW: nat := 4
  const T_BOUND: nat := 5
  const T_ILLOP: nat := 6
  const T_DEVICE: nat := 7
  const T_DBLFLT: nat := 8
  const T_TSS: nat := 10
  const T_SEGNP: nat := 11
  const T_STACK: nat := 12
  const T_GPFLT: nat := 13
  const T_PGFLT: nat := 14
  const T_FPERR: nat := 16
  const T_ALIGN: nat := 17
  const T_MCHK: nat := 18
  const T_SIMDERR: nat := 19
  const T_SYSCALL: nat := 48
  /** The catch-all vector: deliberately not a hardware vector number. */
  const T_DEFAULT: nat := 500

  const IRQ_OFFSET: nat := 32
  const IRQ_TIMER: nat := 0
  const IRQ_KBD: nat := 1
  const IRQ_IDE: nat := 14

  /** The processor exception names, indexed by vector; vector 15 is
      reserved.  Spelling (including "Double Falt") is the kernel's own. */
  const ExceptionNames: seq<string> := [
    "Divide error",
    "Debug",
    "Non-Maskable Interrupt",
    "Breakpoint",
    "Overflow",
    "BOUND Range Exceeded",
    "Invalid Opcode",
    "Device Not Available",
    "Double Falt",
    "Coprocessor Segment Overrun",
    "Invalid TSS",
    "Segment Not Present",
    "Stack Fault",
    "General Protection",
    "Page Fault",
    "(unknown trap)",
    "x87 FPU Floating-Point Error",
    "Alignment Check",
    "Machine-Check",
    "SIMD Floating-Point Exception"
  ]

  const UnknownTrap: string := "(unknown trap)"

  /** Name of a trap number.  The table bound is compared unsigned, so every
      32-bit trap number is either below it or falls through to the later
      tests. */
  function Trapname(trapno: u32): (name: string)
    ensures name in ExceptionNames || name == "System call" || name == "Hardware Interrupt"
    ensures name == "System call" <==> trapno == T_SYSCALL
  {
    if trapno < |ExceptionNames| then ExceptionNames[trapno]
    else if trapno == T_SYSCALL then "System call"
    else if IRQ_OFFSET <= trapno < IRQ_OFFSET + 16 then "Hardware Interrupt"
    else UnknownTrap
  }

  /** Trapname is total and falls into exactly one of four cases: an
      exception name, the system call, a hardware interrupt, or unknown. */
  lemma TrapnameCases(n: u32)
    ensures n < 20 ==> Trapname(n) == ExceptionNames[n]
    ensures Trapname(n) == "System call" <==> n == T_SYSCALL
    ensures Trapname(n) == "Hardware Interrupt" <==> IRQ_OFFSET <= n < IRQ_OFFSET + 16
    ensures Trapname(n) == UnknownTrap <==> n == 15 || (n >= 20 && n != T_SYSCALL && !(IRQ_OFFSET <= n < IRQ_OFFSET + 16))
  {
  }

  /** No exception name collides with the three fixed names, except the
      reserved vector 15 which prints as unknown. */
  lemma NamesDistinct(n: nat)
    requires n < |ExceptionNames|
    ensures ExceptionNames[n] != "System call"
    ensures ExceptionNames[n] != "Hardware Interrupt"
    ensures ExceptionNames[n] == UnknownTrap <==> n == 15
  {
  }

  /** The named exception constants index the matching exception names. */
  lemma ExceptionVectorNamesAgree()
    ensures Trapname(T_DIVIDE) == "Divide error"
    ensures Trapname(T_DEBUG) == "Debug"
    ensures Trapname(T_NMI) == "Non-Maskable Interrupt"
    ensures Trapname(T_BRKPT) == "Breakpoint"
    ensures Trapname(T_OFLOW) == "Overflow"
    ensures Trapname(T_BOUND) == "BOUND Range Exceeded"
    ensures Trapname(T_ILLOP) == "Invalid Opcode"
    ensures Trapname(T_DEVICE) == "Device Not Available"
    ensures Trapname(T_DBLFLT) == "Double Falt"
    ensures Trapname(T_TSS) == "Invalid TSS"
    ensures Trapname(T_SEGNP) == "Segment Not Present"
    ensures Trapname(T_STACK) == "Stack Fault"
    ensures Trapname(T_GPFLT) == "General Protection"
    ensures Trapname(T_PGFLT) == "Page Fault"
    ensures Trapname(T_FPERR) == "x87 FPU Floating-Point Error"
    ensures Trapname(T_ALIGN) == "Alignment Check"
    ensures Trapname(T_MCHK) == "Machine-Check"
    ensures Trapname(T_SIMDERR) == "SIMD Floating-Point Exception"
  {
    assert Trapname(T_DIVIDE) == ExceptionNames[T_DIVIDE];
    assert Trapname(T_DEBUG) == ExceptionNames[T_DEBUG];
    assert Trapname(T_NMI) == ExceptionNames[T_NMI];
    assert Trapname(T_BRKPT) == ExceptionNames[T_BRKPT];
    assert Trapname(T_OFLOW) == ExceptionNames[T_OFLOW];
    assert Trapname(T_BOUND) == ExceptionNames[T_BOUND];
    assert Trapname(T_ILLOP) == ExceptionNames[T_ILLOP];
    assert Trapname(T_DEVICE) == ExceptionNames[T_DEVICE];
    assert Trapname(T_DBLFLT) == ExceptionNames[T_DBLFLT];
    assert Trapname(T_TSS) == ExceptionNames[T_TSS];
    assert Trapname(T_SEGNP) == ExceptionNames[T_SEGNP];
    assert Trapname(T_STACK) == ExceptionNames[T_STACK];
    assert Trapname(T_GPFLT) == ExceptionNames[T_GPFLT];
    assert Trapname(T_PGFLT) == ExceptionNames[T_PGFLT];
    assert Trapname(T_FPERR) == ExceptionNames[T_FPERR];
    assert Trapname(T_ALIGN) == ExceptionNames[T_ALIGN];
    assert Trapname(T_MCHK) == ExceptionNames[T_MCHK];
    assert Trapname(T_SIMDERR) == ExceptionNames[T_SIMDERR];
  }

  /** The system-call, interrupt and catch-all vectors print under the
      fixed names. */
  lemma OtherVectorNamesAgree()
    ensures Trapname(T_SYSCALL) == "System call"
    ensures Trapname(IRQ_OFFSET + IRQ_TIMER) == "Hardware Interrupt"
    ensures Trapname(IRQ_OFFSET + IRQ_KBD) == "Hardware Interrupt"
    ensures Trapname(IRQ_OFFSET + IRQ_IDE) == "Hardware Interrupt"
    ensures Trapname(T_DEFAULT) == UnknownTrap
  {
  }
}
